=== FILE: README.md ===
# DAO DAO action forms and address check, in Dafny

This project models three small pieces of logic from the DAO DAO web frontend:

1. **The wallet page action list** (`packages/ui/pages/Wallet.tsx`). The page keeps an ordered
   list of `{key, data}` action entries. Selecting an action appends an entry with that action's
   defaults. Submitting either flips the preview panel (Preview button) or maps every entry
   through its action's `transform`, drops the falsy results and calls `execute` with the rest.
   The preview panel computes the same list.
2. **The authz exec action** (`packages/stateful/actions/components/AuthzExec.tsx`). The editor
   recomputes the `msgs` field from a nested `_actions` list on every render, inside a single
   `try`. It records or clears an error on `msgs`, appends entries with copied defaults, and
   removes entries after resetting their data. The renderer decodes a message list by asking
   every action in `orderedActions` for a verdict. Each message goes to the first action that
   matches, and messages nothing matches are dropped.
3. **`isValidAddress`** (`util/isValidAddress.ts`). This is the regular expression
   `^[a-z]{1,83}[a-km-zA-HJ-NP-Z0-9]{39}$` with the `i` and `m` flags. It is not a bech32
   check: there is no separator or checksum test.

Modules:

- `Wrappers`: `Option` and `Result`.
- `Seqs`: subsequences, first-index search, deletion at a position, and `FilterMap`
  (`map` then `filter(Boolean)`) with its order lemmas.
- `JsValues`: JavaScript values, `Boolean(v)` and `??`.
- `Actions`: the entry and action-table types shared by both pages, plus the
  transform-then-filter pipeline.
- `WalletPage`: the wallet page's handlers.
- `AuthzExec`: the editor and the renderer.
- `Address`: the regular expression as written, and its per-line description.

Modelling choices:

- `transform` and `useDecodedCosmosMsg` are function-valued parameters. `decodeMessages` is
  abstracted away: `DecodeAll` takes the decoded list. A
  transform either returns a value or throws (`Outcome`).
- `.filter(Boolean)` keeps truthy values. Besides `undefined`, it therefore also drops `null`,
  `false`, `0` and `""`.
- `Array.prototype.map` runs transforms left to right, and the first throw escapes
  (`MapEntries`).
- The form library is reduced to what the handlers see. `handleSubmit`'s validation verdict is
  a `valid` flag. `watch`, `setValue`, `setError`, `clearErrors`, `resetField`, `append` and
  `remove` become operations on immutable values.
- The regular expression is stated as the ECMAScript matcher reads it, over Unicode scalar
  values rather than UTF-16 code units (see "## Left out"). `^` and `$`
  match at line boundaries (`\n`, `\r`, U+2028, U+2029). Each class matches a character when
  some member case-folds to the same character. This is then proved equal to a plain
  line-by-line description.

How failures and unknown keys behave in the code:

- A failing transform fails the whole list. The editor's `try` wraps the whole list, so one
  throw empties `msgs`. On the wallet page, a throw escapes the submit handler and `execute` is
  not called.
- Selecting a key the page does not know appends `{key, data: {}}`. Rendering that entry then
  throws, while the message list simply drops it.
- The submit handler keeps no in-flight state. `execute` is called and not awaited, so nothing in
  the handler stops a second submit.

What the regular expression actually accepts:

- Because of `i`, the tail class is all ASCII letters and digits. The `l`, `I` and `O` it
  leaves out are accepted anyway.
- Because of `m`, any single fitting line makes a multi-line text valid.

## Model

| member | source | states |
|---|---|---|
| Actions.DefaultsFor | packages/ui/pages/Wallet.tsx:225 | `defaults ?? {}` is never null or undefined; a registered non-null default is used as is; an unknown key, or a null or undefined default, gets `{}` |
| Actions.TransformEntry | packages/ui/pages/Wallet.tsx:112 | an entry whose key has no loaded action yields `undefined` without running any transform |
| Actions.MapEntries | packages/ui/pages/Wallet.tsx:111-112 | a successful map has one value per entry |
| Actions.MapEntriesOkIff | packages/ui/pages/Wallet.tsx:111-112 | the map succeeds exactly when no entry's transform throws |
| Actions.MapEntriesPointwise | packages/ui/pages/Wallet.tsx:111-112 | when nothing throws, position i of the mapped list is what entry i's transform returned |
| Actions.FilterTruthy | packages/ui/pages/Wallet.tsx:113-114 | the filtered list is no longer than its input, holds only truthy values, and loses no truthy value |
| Actions.FilterTruthyIsSubsequence | packages/ui/pages/Wallet.tsx:113-114 | the filter keeps survivors in their original order |
| Actions.FilterTruthyAppend | packages/ui/pages/Wallet.tsx:113-114 | the filter works entry by entry: filtering a concatenation concatenates the filtered parts |
| Actions.MapEntriesAppend | packages/stateful/actions/components/AuthzExec.tsx:138-140 | mapping a concatenation is the two maps in sequence: a throw in the first part escapes, else a throw in the second, else the values are joined |
| Actions.FilterTruthyIsFilterMap | packages/ui/pages/Wallet.tsx:111-114 | `.filter(Boolean)` keeps exactly the values for which the generic keep-or-drop map keeps them: the truthy ones |
| Actions.Messages | packages/ui/pages/Wallet.tsx:111-114 | the message list exists exactly when no transform throws; it has at most one message per entry, all truthy |
| Actions.MessagesIsPerEntryFilter | packages/ui/pages/Wallet.tsx:111-114 | when nothing throws, the message list is exactly, in entry order, each entry's transform result where that result is truthy, and nothing else |
| Actions.MessagesKeepTruthyPositions | packages/ui/pages/Wallet.tsx:111-114 | message i is what entry pos[i] returned, the positions strictly increase, and an entry is among them exactly when its result is truthy |
| Actions.TruthyResultIsKept | packages/ui/pages/Wallet.tsx:111-114 | when nothing throws, every truthy transform result is in the message list |
| Actions.MessagesAppend | packages/ui/pages/Wallet.tsx:111-114 | messages of a concatenated action list are the concatenated messages; an earlier throw masks later entries |
| Actions.MessagesAreSubsequence | packages/ui/pages/Wallet.tsx:111-114 | the message list is an order-preserving selection of the per-entry transform results |
| Actions.MessagesErrorIsFirstThrow | packages/stateful/actions/components/AuthzExec.tsx:138-142 | the error that escapes is the one thrown by the first throwing entry, with all earlier entries returning normally |
| Actions.UnknownEntryHasNoMessage | packages/ui/pages/Wallet.tsx:112-114 | an entry with an unknown key maps to `undefined` and contributes no message |
| Seqs.FirstIndex | packages/stateful/actions/components/AuthzExec.tsx:253 | `find` returns the first position satisfying the predicate: every earlier one fails it, and none is returned only when all fail |
| Seqs.RemoveAt | packages/stateful/actions/components/AuthzExec.tsx:203 | removing position i shortens the list by one and keeps every other entry in its relative order |
| WalletPage.SelectAction | packages/ui/pages/Wallet.tsx:222-227 | selecting appends exactly one entry, `{key, data: defaults ?? {}}`, whose data is never null or undefined; earlier entries and flags are unchanged |
| WalletPage.RemoveAction | packages/ui/pages/Wallet.tsx:211 | removing a card deletes exactly that entry; an out-of-range index changes nothing |
| WalletPage.OnSubmitForm | packages/ui/pages/Wallet.tsx:99-119 | the error note is cleared; Preview only flips `showPreview` and never executes; any other submitter, whatever `showPreview` is, executes the transform-and-filter list of the current entries, or raises the first throw; it executes exactly when no transform throws, with at most one truthy message per entry |
| WalletPage.OnSubmitError | packages/ui/pages/Wallet.tsx:121-128 | a validation failure shows the error note and leaves the action list and preview flag alone |
| WalletPage.HandleSubmit | packages/ui/pages/Wallet.tsx:139 | the error note is shown exactly when validation failed; a failed validation executes nothing |
| WalletPage.PreviewMessages | packages/ui/pages/Wallet.tsx:286-296 | the preview list is computed only while the preview is shown, and is available exactly when no transform throws |
| WalletPage.RenderCards | packages/ui/pages/Wallet.tsx:185-194 | rendering succeeds exactly when every entry has a Component; otherwise it throws the detection error for the first entry without one |
| WalletPage.PreviewTwiceRestores | packages/ui/pages/Wallet.tsx:106-109 | two Preview submits restore `showPreview` and execute nothing |
| WalletPage.PreviewMatchesSubmit | packages/ui/pages/Wallet.tsx:288-295 | for the same form state, Submit executes exactly the list the preview shows, or raises the preview's error |
| WalletPage.ExecutedIsSubsequence | packages/ui/pages/Wallet.tsx:111-116 | the executed list is an order-preserving selection of per-entry transform results, each the return value of some entry's transform |
| WalletPage.TruthyResultIsExecuted | packages/ui/pages/Wallet.tsx:111-116 | when nothing throws, a valid non-Preview submit executes, and every truthy transform result is among the executed messages |
| WalletPage.SelectActionAppendsMessage | packages/ui/pages/Wallet.tsx:222-227 | selecting an action adds at most one message, at the end; an unknown key adds none |
| WalletPage.UnknownKeyRenderThrowsButIsDropped | packages/ui/pages/Wallet.tsx:188-194 | an entry with an unknown key makes rendering throw but leaves the message list as if the entry were absent |
| AuthzExec.WatchedMessages | packages/stateful/actions/components/AuthzExec.tsx:138-142 | the watched list is available exactly when `_actions` is absent or none of its transforms throws; then it holds at most one truthy message per row |
| AuthzExec.RecomputeCalls | packages/stateful/actions/components/AuthzExec.tsx:136-162 | `clearErrors` is called exactly when nothing throws and an error is recorded; `setError` exactly when something throws and none is recorded; the list is always stored last |
| AuthzExec.Recompute | packages/stateful/actions/components/AuthzExec.tsx:136-162 | without a throw, `msgs` is the filtered transform list and the error is cleared; with a throw, `msgs` is `[]` and the first throw's text is recorded as a manual error unless an older error is kept |
| AuthzExec.AllOrNothing | packages/stateful/actions/components/AuthzExec.tsx:136-156 | one throwing entry anywhere empties the whole `msgs` list and leaves an error recorded |
| AuthzExec.RecordedErrorIsFirstThrow | packages/stateful/actions/components/AuthzExec.tsx:147-155 | the recorded message is the text thrown by the first throwing entry |
| AuthzExec.RecomputeIdempotent | packages/stateful/actions/components/AuthzExec.tsx:135-162 | re-rendering with an unchanged list changes neither `msgs` nor the recorded error |
| AuthzExec.AppendAction | packages/stateful/actions/components/AuthzExec.tsx:222-227 | appending adds one entry `{key, defaults ?? {}}` at the end, keeps earlier entries, and leaves `msgs` and its error alone |
| AuthzExec.AppendThenRecompute | packages/stateful/actions/components/AuthzExec.tsx:136-162 | appending a row and rendering grows `msgs` by at most one message at the end, and a row with no loaded action adds none and records no error |
| AuthzExec.AppendedCopyIsIndependent | packages/stateful/actions/components/AuthzExec.tsx:225-226 | editing an appended entry and re-rendering leaves the defaults the next append copies unchanged |
| AuthzExec.ResetEntryData | packages/stateful/actions/components/AuthzExec.tsx:195-201 | the reset sets row i's data to `{}`, keeps its key, and touches no other row |
| AuthzExec.OnRemove | packages/stateful/actions/components/AuthzExec.tsx:188-204 | reset-then-remove deletes row i and keeps every other row's contents and relative order |
| AuthzExec.Chosen | packages/stateful/actions/components/AuthzExec.tsx:248-253 | the chosen action matches and every earlier one does not; nothing is chosen only when no action matches |
| AuthzExec.DecodeOne | packages/stateful/actions/components/AuthzExec.tsx:255-260 | a message yields a pair exactly when some action matches; the pair holds the first matching action and the data its decoder reported |
| AuthzExec.DecodeAll | packages/stateful/actions/components/AuthzExec.tsx:246-262 | the decoded list is never longer than the message list |
| AuthzExec.DecodeAllKeepsOrder | packages/stateful/actions/components/AuthzExec.tsx:246-262 | output i decodes message pos[i]; the positions strictly increase; a message is missing exactly when no action matches it |
| AuthzExec.DecodeAllAppend | packages/stateful/actions/components/AuthzExec.tsx:246-262 | decoding works message by message: a concatenated list decodes to the concatenated decodings |
| AuthzExec.EarlierActionWins | packages/stateful/actions/components/AuthzExec.tsx:248-253 | if action j matches, the chosen action is j or an earlier one |
| AuthzExec.ChoiceIgnoresLaterActions | packages/stateful/actions/components/AuthzExec.tsx:245-253 | appending actions after the chosen one changes neither the choice nor the decoded pair |
| AuthzExec.BankThenExecuteScenario | packages/stateful/actions/components/AuthzExec.tsx:246-262 | with bank-send before contract-execute, a bank message, an unknown message and a wasm message decode to two pairs in order, and the unknown one is dropped |
| Address.IsValidAddress | util/isValidAddress.ts:2-7 | accepts exactly when the address is present, non-empty, and the `i`/`m` regular expression matches somewhere; a missing or empty address is rejected |
| Address.PrefixMatchesLetters | util/isValidAddress.ts:3 | under `i`, `[a-z]` matches exactly the ASCII letters |
| Address.TailMatchesAlnum | util/isValidAddress.ts:3 | under `i`, the tail class matches exactly the ASCII letters and digits |
| Address.ConfusablesAcceptedByFolding | util/isValidAddress.ts:3 | `l`, `I` and `O` are outside the tail class as written, yet matched because of `i` |
| Address.SomeLineFitsIffMatches | util/isValidAddress.ts:3-7 | from a line start on, some line fits the length and character rule exactly when the regular expression matches there |
| Address.SingleLineRule | util/isValidAddress.ts:3-7 | a single line is accepted iff it has 40 to 122 ASCII letters and digits with all but the last 39 letters, the same as some split of 1..83 prefix letters plus 39 tail characters |
| Address.SingleLineBadCharacterRejected | util/isValidAddress.ts:3 | a single line starting with a digit, or holding any non-alphanumeric character, is rejected |
| Address.CaseDoesNotMatter | util/isValidAddress.ts:3 | two strings equal up to ASCII letter case get the same verdict |
| Address.TailCharacterIrrelevant | util/isValidAddress.ts:3 | with no checksum, any tail character of an accepted line can be replaced by any ASCII letter or digit and the line stays accepted |
| Address.AnyFittingLineSuffices | util/isValidAddress.ts:3-7 | a fitting line between line terminators makes the whole text valid, whatever the other lines hold |
| Address.LinesFrom | util/isValidAddress.ts:3 | every line produced by the split is free of line terminators |

## Left out

- Rendering: React rendering, JSX, hooks, styling, i18n and toasts are not modelled. That covers the action cards' props, the `ActionSelector` and `Loader` components, and the `console.error` calls.
- Library internals: `handleSubmit`'s validation is abstract, and the model receives only its verdict as `valid`. `useFieldArray`'s field ids and `shouldUnregister` are not modelled either.
- Disabled buttons: the Preview button is disabled while loading, and Submit is disabled while disconnected and shows `loading` while loading. Any submitter value can be passed to the model.
- `execute`: the model records the single call and its argument. The returned promise is never awaited, so nothing after the call is modelled.
- `decodedMessagesString`: it only formats the preview list for display, so the model stops at the list.
- Object identity: values are immutable, so `cloneDeep` is the identity. On the wallet page, `append` stores the defaults object itself rather than a copy. Any later mutation through that shared object cannot be expressed here.
- `useDeepCompareEffect`: it writes `msgs` only when the list changed. The model writes it after every recompute, and the stored value is the same either way.
- Editor rows: an editor row whose `Component` is missing renders nothing. This display detail is not modelled, unlike the wallet page's throw.
- `decodeMessages` and `useDecodedCosmosMsg`: `decodeMessages` is abstracted away, because `DecodeAll` takes the decoded list, and `useDecodedCosmosMsg` is a parameter. Their bodies, including base64 payload decoding, are not part of this model.
- Truthiness: numbers are integers, so `NaN`, which is falsy, is not represented.
- Case folding: it is modelled on ASCII only. Non-ASCII characters never fold onto ASCII ones in a non-unicode JavaScript regular expression, so the classes match the same characters either way.
- Address input: `isValidAddress` is modelled on an optional string. A non-string argument is not modelled.
- Address gate: `AuthzExec.tsx:103` shows the nested actions only when `isValidAddress(coreAddress, CHAIN_BECH32_PREFIX)` holds. That two-argument validator comes from `@dao-dao/utils`, not from `util/isValidAddress.ts`, and it is not part of this model, so the gate is not modelled.
- AuthzExec.DecodeAll: its contract states only the length bound. Order, dropping and first match are stated in `AuthzExec.DecodeAllKeepsOrder` and `AuthzExec.DecodeOne`.
- Code units: a non-unicode JavaScript regular expression reads UTF-16 code units, while the model reads Unicode scalar values. Lone surrogates cannot be represented, and an astral character is one character instead of two. No surrogate is an ASCII letter, digit or line terminator, so the verdict is the same for every representable string.
- AuthzExec.AppendedCopyIsIndependent: it holds by construction, because values are immutable and the action table is not part of the form state. It cannot tell the deep-copied append on the authz page from the shared-object append on the wallet page.

=== FILE: actions.dfy ===
/** The pieces both action forms share: an entry of an action list, the per-action table the
    page receives, and the "map every entry through its transform, drop falsy results"
    pipeline that turns an action list into the Cosmos messages to execute. */
module Actions {
  import opened Wrappers
  import opened JsValues
  import opened Seqs

  type ActionKey = string

  /** `ActionKeyAndData`: one row of an action list. */
  datatype Entry = Entry(key: ActionKey, data: JsValue)

  /** A value thrown by a transform: an `Error` carries its `message`, anything else is shown as
      its string conversion `${err}`. */
  datatype Thrown = ErrorInstance(message: string) | OtherThrown(text: string)

  /** What one call of an action's `transform` does: returns a value or throws. */
  datatype Outcome = Returned(value: JsValue) | Threw(thrown: Thrown)

  /** What the page knows about one loaded action: whether its `action.Component` exists, its
      `transform` (an uninterpreted pure function here) and its `defaults`. */
  datatype LoadedAction = LoadedAction(hasComponent: bool, transform: JsValue -> Outcome, defaults: JsValue)

  /** `actionsWithData` / `loadedActions`: the actions known to the page, by key. */
  type Table = map<ActionKey, LoadedAction>

  /** The text the form shows for a thrown value. */
  function ThrownText(t: Thrown): string {
    match t
    case ErrorInstance(m) => m
    case OtherThrown(s) => s
  }

  /** `table[key]?.defaults ?? {}` */
  function DefaultsFor(table: Table, key: ActionKey): (d: JsValue)
    ensures !Nullish(d)
    ensures key in table && !Nullish(table[key].defaults) ==> d == table[key].defaults
    ensures key in table && Nullish(table[key].defaults) ==> d == EmptyObject
    ensures key !in table ==> d == EmptyObject
  {
    if key in table then Coalesce(table[key].defaults, EmptyObject) else EmptyObject
  }

  /** `table[key]?.action?.Component` is defined. */
  predicate HasComponent(table: Table, key: ActionKey) {
    key in table && table[key].hasComponent
  }

  /** `table[key]?.transform(data)`: an unknown key yields `undefined` without calling anything. */
  function TransformEntry(table: Table, e: Entry): (o: Outcome)
    ensures e.key !in table ==> o == Returned(Undefined)
  {
    if e.key in table then table[e.key].transform(e.data) else Returned(Undefined)
  }

  /** No transform of the list throws. */
  predicate AllReturn(table: Table, entries: seq<Entry>) {
    forall i :: 0 <= i < |entries| ==> TransformEntry(table, entries[i]).Returned?
  }

  /** `entries.map(({key, data}) => table[key]?.transform(data))`: transforms run left to right
      and the first throw escapes the whole map. */
  function MapEntries(table: Table, entries: seq<Entry>): (r: Result<seq<JsValue>, Thrown>)
    ensures r.Ok? ==> |r.value| == |entries|
    decreases |entries|
  {
    if |entries| == 0 then Ok([])
    else match TransformEntry(table, entries[0])
      case Threw(t) => Err(t)
      case Returned(v) =>
        match MapEntries(table, entries[1..])
        case Err(t) => Err(t)
        case Ok(vs) => Ok([v] + vs)
  }

  /** The map succeeds exactly when no transform of the list throws. */
  lemma {:induction false} MapEntriesOkIff(table: Table, entries: seq<Entry>)
    ensures MapEntries(table, entries).Ok? <==> AllReturn(table, entries)
    decreases |entries|
  {
    if |entries| > 0 {
      MapEntriesOkIff(table, entries[1..]);
      assert forall i :: 1 <= i < |entries| ==> entries[i] == entries[1..][i - 1];
    }
  }

  /** When no transform throws, the mapped list holds, position by position, what each entry's
      transform returned. */
  lemma {:induction false} MapEntriesPointwise(table: Table, entries: seq<Entry>)
    requires AllReturn(table, entries)
    ensures MapEntries(table, entries).Ok?
    ensures forall i :: 0 <= i < |entries| ==>
              TransformEntry(table, entries[i]) == Returned(MapEntries(table, entries).value[i])
    decreases |entries|
  {
    MapEntriesOkIff(table, entries);
    if |entries| > 0 {
      assert AllReturn(table, entries[1..]) by {
        forall i | 0 <= i < |entries[1..]|
          ensures TransformEntry(table, entries[1..][i]).Returned?
        {
          assert entries[1..][i] == entries[i + 1];
        }
      }
      MapEntriesPointwise(table, entries[1..]);
      forall i | 1 <= i < |entries|
        ensures TransformEntry(table, entries[i]) == Returned(MapEntries(table, entries).value[i])
      {
        assert entries[i] == entries[1..][i - 1];
      }
    }
  }

  /** `.filter(Boolean)`: keeps the truthy values in their order. */
  function FilterTruthy(vs: seq<JsValue>): (r: seq<JsValue>)
    ensures |r| <= |vs|
    ensures forall i :: 0 <= i < |r| ==> Truthy(r[i])
    ensures forall v :: v in vs && Truthy(v) ==> v in r
    decreases |vs|
  {
    if |vs| == 0 then []
    else
      var rest := FilterTruthy(vs[1..]);
      assert forall v :: v in vs ==> v == vs[0] || v in vs[1..];
      if Truthy(vs[0]) then [vs[0]] + rest else rest
  }

  /** `.filter(Boolean)` is the instance of `FilterMap` that keeps a value exactly when it is
      truthy; `FilterTruthy` is that instance written out, so the message lemmas can speak of
      subsequences directly. */
  lemma {:induction false} FilterTruthyIsFilterMap(vs: seq<JsValue>)
    ensures FilterTruthy(vs) == FilterMap(vs, (v: JsValue) => if Truthy(v) then Some(v) else None)
    decreases |vs|
  {
    if |vs| > 0 {
      FilterTruthyIsFilterMap(vs[1..]);
    }
  }

  /** The message list built from an action list: every entry through its transform, falsy
      results (among them the `undefined` of an unknown key) removed. */
  function Messages(table: Table, entries: seq<Entry>): (r: Result<seq<JsValue>, Thrown>)
    ensures r.Ok? <==> AllReturn(table, entries)
    ensures r.Ok? ==> |r.value| <= |entries|
    ensures r.Ok? ==> forall i :: 0 <= i < |r.value| ==> Truthy(r.value[i])
  {
    MapEntriesOkIff(table, entries);
    match MapEntries(table, entries)
    case Err(t) => Err(t)
    case Ok(vs) => Ok(FilterTruthy(vs))
  }

  /** The filter keeps the surviving values in their original order. */
  lemma {:induction false} FilterTruthyIsSubsequence(vs: seq<JsValue>)
    ensures IsSubsequence(FilterTruthy(vs), vs)
    decreases |vs|
  {
    if |vs| > 0 {
      FilterTruthyIsSubsequence(vs[1..]);
      SubsequenceOfTail(FilterTruthy(vs[1..]), vs);
    }
  }

  /** Helper: a subsequence of the tail is a subsequence of the whole. */
  lemma SubsequenceOfTail<T>(xs: seq<T>, ys: seq<T>)
    requires |ys| > 0 && IsSubsequence(xs, ys[1..])
    ensures IsSubsequence(xs, ys) && IsSubsequence([ys[0]] + xs, ys)
  {
    assert ([ys[0]] + xs)[1..] == xs;
  }

  /** Filtering a concatenation filters each part: the filter works entry by entry. */
  lemma {:induction false} FilterTruthyAppend(a: seq<JsValue>, b: seq<JsValue>)
    ensures FilterTruthy(a + b) == FilterTruthy(a) + FilterTruthy(b)
    decreases |a|
  {
    if |a| > 0 {
      assert (a + b)[1..] == a[1..] + b;
      FilterTruthyAppend(a[1..], b);
    } else {
      assert a + b == b;
    }
  }

  /** Two results in sequence: the first error wins, otherwise the values are joined. */
  function Concat(ra: Result<seq<JsValue>, Thrown>, rb: Result<seq<JsValue>, Thrown>): Result<seq<JsValue>, Thrown> {
    match ra
    case Err(_) => ra
    case Ok(xs) =>
      match rb
      case Err(_) => rb
      case Ok(ys) => Ok(xs + ys)
  }

  /** Mapping a concatenation maps each part; a throw in the first part wins. */
  lemma {:induction false} MapEntriesAppend(table: Table, a: seq<Entry>, b: seq<Entry>)
    ensures MapEntries(table, a + b) == Concat(MapEntries(table, a), MapEntries(table, b))
    decreases |a|
  {
    var rb := MapEntries(table, b);
    if |a| == 0 {
      assert a + b == b;
      assert MapEntries(table, a) == Ok([]);
      if rb.Ok? {
        assert [] + rb.value == rb.value;
      }
    } else {
      assert (a + b)[1..] == a[1..] + b;
      MapEntriesAppend(table, a[1..], b);
      var o, ra := TransformEntry(table, a[0]), MapEntries(table, a[1..]);
      if o.Returned? && ra.Ok? && rb.Ok? {
        assert [o.value] + ra.value + rb.value == [o.value] + (ra.value + rb.value);
      }
    }
  }

  /** What one entry contributes on its own: its transform's result when that is truthy. */
  function Keep(table: Table): Entry -> Option<JsValue> {
    (e: Entry) =>
      match TransformEntry(table, e)
      case Returned(v) => if Truthy(v) then Some(v) else None
      case Threw(_) => None
  }

  /** When nothing throws, the message list is exactly the per-entry keep-or-drop, in entry
      order: every truthy transform result is kept and nothing else is. */
  lemma {:induction false} MessagesIsPerEntryFilter(table: Table, entries: seq<Entry>)
    requires AllReturn(table, entries)
    ensures Messages(table, entries) == Ok(FilterMap(entries, Keep(table)))
    decreases |entries|
  {
    MapEntriesOkIff(table, entries);
    if |entries| > 0 {
      var rest := entries[1..];
      assert AllReturn(table, rest) by {
        forall i | 0 <= i < |rest|
          ensures TransformEntry(table, rest[i]).Returned?
        {
          assert rest[i] == entries[i + 1];
        }
      }
      MapEntriesOkIff(table, rest);
      MessagesIsPerEntryFilter(table, rest);
      var v := TransformEntry(table, entries[0]).value;
      var vs := MapEntries(table, rest).value;
      assert MapEntries(table, entries).value == [v] + vs;
      assert ([v] + vs)[1..] == vs;
    }
  }

  /** The message list, position by position: message `i` is what entry `pos[i]` returned, the
      positions increase, and entry `k` is among them exactly when its result is truthy. */
  lemma MessagesKeepTruthyPositions(table: Table, entries: seq<Entry>)
    requires AllReturn(table, entries)
    ensures Messages(table, entries).Ok?
    ensures var ms, pos := Messages(table, entries).value, KeptPositions(entries, Keep(table), 0);
            && |ms| == |pos|
            && (forall i :: 0 <= i < |pos| ==>
                  pos[i] < |entries| && TransformEntry(table, entries[pos[i]]) == Returned(ms[i]))
            && StrictlyIncreasing(pos)
            && (forall k :: 0 <= k < |entries| ==>
                  (k in pos <==> Truthy(TransformEntry(table, entries[k]).value)))
  {
    MessagesIsPerEntryFilter(table, entries);
    FilterMapKeepsOrder(entries, Keep(table));
  }

  /** A truthy transform result reaches the message list. */
  lemma TruthyResultIsKept(table: Table, entries: seq<Entry>, i: nat, v: JsValue)
    requires AllReturn(table, entries)
    requires i < |entries| && TransformEntry(table, entries[i]) == Returned(v) && Truthy(v)
    ensures Messages(table, entries).Ok? && v in Messages(table, entries).value
  {
    MapEntriesPointwise(table, entries);
    assert MapEntries(table, entries).value[i] == v;
  }

  /** The message list of a concatenation is the concatenation of the message lists; a throw in
      the first part is the one reported. */
  lemma MessagesAppend(table: Table, a: seq<Entry>, b: seq<Entry>)
    ensures Messages(table, a).Err? ==> Messages(table, a + b) == Messages(table, a)
    ensures Messages(table, a).Ok? ==>
              Messages(table, a + b) == (match Messages(table, b)
                                         case Err(t) => Err(t)
                                         case Ok(ms) => Ok(Messages(table, a).value + ms))
  {
    MapEntriesAppend(table, a, b);
    if MapEntries(table, a).Ok? && MapEntries(table, b).Ok? {
      FilterTruthyAppend(MapEntries(table, a).value, MapEntries(table, b).value);
    }
  }

  /** When nothing throws, the message list keeps, in entry order, a subset of the per-entry
      transform results. */
  lemma MessagesAreSubsequence(table: Table, entries: seq<Entry>)
    requires AllReturn(table, entries)
    ensures MapEntries(table, entries).Ok? && Messages(table, entries).Ok?
    ensures IsSubsequence(Messages(table, entries).value, MapEntries(table, entries).value)
  {
    MapEntriesOkIff(table, entries);
    FilterTruthyIsSubsequence(MapEntries(table, entries).value);
  }

  /** The error a throwing list reports is the one thrown by its first throwing entry. */
  lemma {:induction false} MessagesErrorIsFirstThrow(table: Table, entries: seq<Entry>)
    requires !AllReturn(table, entries)
    ensures Messages(table, entries).Err?
    ensures exists i :: && 0 <= i < |entries|
                        && TransformEntry(table, entries[i]) == Threw(Messages(table, entries).error)
                        && AllReturn(table, entries[..i])
    decreases |entries|
  {
    MapEntriesOkIff(table, entries);
    var err := MapEntries(table, entries).error;
    if TransformEntry(table, entries[0]).Threw? {
      assert TransformEntry(table, entries[0]) == Threw(err);
      assert AllReturn(table, entries[..0]);
    } else {
      assert !AllReturn(table, entries[1..]) by {
        var i :| 0 <= i < |entries| && !TransformEntry(table, entries[i]).Returned?;
        assert entries[1..][i - 1] == entries[i];
      }
      MessagesErrorIsFirstThrow(table, entries[1..]);
      var i :| && 0 <= i < |entries[1..]|
               && TransformEntry(table, entries[1..][i]) == Threw(Messages(table, entries[1..]).error)
               && AllReturn(table, entries[1..][..i]);
      assert entries[..i + 1] == [entries[0]] + entries[1..][..i];
      assert TransformEntry(table, entries[i + 1]) == Threw(err);
    }
  }

  /** An entry with an unknown key contributes `undefined`, which the filter removes. */
  lemma UnknownEntryHasNoMessage(table: Table, e: Entry)
    requires e.key !in table
    ensures MapEntries(table, [e]) == Ok([Undefined])
    ensures Messages(table, [e]) == Ok([])
  {
    assert [e][0] == e && [e][1..] == [];
    assert MapEntries(table, []) == Ok([]);
    assert [Undefined][1..] == [] && [Undefined] + [] == [Undefined];
    assert TransformEntry(table, e) == Returned(Undefined);
    assert FilterTruthy([Undefined]) == [];
  }
}

=== FILE: address.dfy ===
/** `isValidAddress`: a JavaScript regular expression `^[a-z]{1,83}[a-km-zA-HJ-NP-Z0-9]{39}$`
    with the `i` (ignore case) and `m` (multiline) flags. No bech32 separator or checksum check
    is made: only the shape of the text. */
module Address {
  import opened Wrappers

  const MaxPrefix: nat := 83
  const TailLength: nat := 39

  /** The characters after which `^` and before which `$` match under the `m` flag. */
  predicate IsLineTerminator(c: char) {
    c == '\n' || c == '\r' || c == '\U{2028}' || c == '\U{2029}'
  }

  /** Case folding of a non-unicode `i` regular expression, restricted to ASCII: lower-case
      letters fold to upper case. Non-ASCII characters never fold to ASCII ones, so leaving them
      unchanged does not affect membership in the all-ASCII classes used here. */
  function Canonicalize(c: char): char {
    if 'a' <= c <= 'z' then (c as int - 32) as char else c
  }

  /** `[a-z]` as written. */
  predicate InPrefixClass(a: char) {
    'a' <= a <= 'z'
  }

  /** `[a-km-zA-HJ-NP-Z0-9]` as written: the bech32-like alphabet without `l`, `I` and `O`. */
  predicate InTailClass(a: char) {
    || 'a' <= a <= 'k' || 'm' <= a <= 'z'
    || 'A' <= a <= 'H' || 'J' <= a <= 'N' || 'P' <= a <= 'Z'
    || '0' <= a <= '9'
  }

  /** A class matches `c` under the `i` flag when some member folds to the same character. */
  ghost predicate PrefixMatches(c: char) {
    exists a :: InPrefixClass(a) && Canonicalize(a) == Canonicalize(c)
  }

  ghost predicate TailMatches(c: char) {
    exists a :: InTailClass(a) && Canonicalize(a) == Canonicalize(c)
  }

  /** The regular expression matches `s` from `p` with `k` characters taken by `[a-z]{1,83}`:
      `^` at a line start, `k` prefix characters, 39 tail characters, `$` at a line end. */
  ghost predicate MatchesAt(s: string, p: int, k: int) {
    && 0 <= p && 1 <= k <= MaxPrefix && p + k + TailLength <= |s|
    && (p == 0 || IsLineTerminator(s[p - 1]))
    && (forall i :: p <= i < p + k ==> PrefixMatches(s[i]))
    && (forall i :: p + k <= i < p + k + TailLength ==> TailMatches(s[i]))
    && (p + k + TailLength == |s| || IsLineTerminator(s[p + k + TailLength]))
  }

  /** `s.match(regex)` finds a match. */
  ghost predicate RegexMatches(s: string) {
    exists p, k :: MatchesAt(s, p, k)
  }

  predicate IsAsciiLetter(c: char) {
    'a' <= c <= 'z' || 'A' <= c <= 'Z'
  }

  predicate IsAsciiAlnum(c: char) {
    IsAsciiLetter(c) || '0' <= c <= '9'
  }

  /** The single-line rule by length and character kind: 40 to 122 ASCII letters and digits, of
      which all but the last 39 are letters. */
  predicate LineFits(line: string) {
    && TailLength + 1 <= |line| <= MaxPrefix + TailLength
    && (forall i :: 0 <= i < |line| ==> IsAsciiAlnum(line[i]))
    && (forall i :: 0 <= i < |line| - TailLength ==> IsAsciiLetter(line[i]))
  }

  /** The end of the line that contains position `i`: the next line terminator, or the end. */
  function LineEnd(s: string, i: nat): (e: nat)
    requires i <= |s|
    ensures i <= e <= |s|
    ensures e == |s| || IsLineTerminator(s[e])
    ensures forall j :: i <= j < e ==> !IsLineTerminator(s[j])
    decreases |s| - i
  {
    if i == |s| || IsLineTerminator(s[i]) then i else LineEnd(s, i + 1)
  }

  /** The lines of `s` from the line starting at `start` on. */
  function LinesFrom(s: string, start: nat): (lines: seq<string>)
    requires start <= |s|
    ensures |lines| > 0
    ensures forall l :: l in lines ==> forall j :: 0 <= j < |l| ==> !IsLineTerminator(l[j])
    decreases |s| - start
  {
    var e := LineEnd(s, start);
    if e == |s| then [s[start..]]
    else [s[start..e]] + LinesFrom(s, e + 1)
  }

  /** `s` split at every line terminator. */
  function Lines(s: string): seq<string> {
    LinesFrom(s, 0)
  }

  /** `isValidAddress`: a missing or empty string is rejected; otherwise the regular
      expression must match, which happens exactly when one of the lines fits. */
  function IsValidAddress(address: Option<string>): (r: bool)
    ensures r <==> address.Some? && |address.value| > 0 && RegexMatches(address.value)
    ensures address.None? || address.value == [] ==> !r
  {
    match address
    case None => false
    case Some(s) =>
      if |s| == 0 then false
      else
        SomeLineFitsIffMatches(s, 0);
        exists line :: line in Lines(s) && LineFits(line)
  }

  /** Under the `i` flag `[a-z]` accepts exactly the ASCII letters. */
  lemma PrefixMatchesLetters(c: char)
    ensures PrefixMatches(c) <==> IsAsciiLetter(c)
  {
    if IsAsciiLetter(c) {
      var a := if 'A' <= c <= 'Z' then (c as int + 32) as char else c;
      assert InPrefixClass(a) && Canonicalize(a) == Canonicalize(c);
    }
  }

  /** Under the `i` flag the tail class accepts exactly the ASCII letters and digits: `l`, `I`
      and `O` fold onto `L`, `i` and `o`, which the class does contain. */
  lemma TailMatchesAlnum(c: char)
    ensures TailMatches(c) <==> IsAsciiAlnum(c)
  {
    if IsAsciiAlnum(c) {
      var lower := if 'A' <= c <= 'Z' then (c as int + 32) as char else c;
      var a := if lower == 'l' then 'L' else lower;
      assert InTailClass(a) && Canonicalize(a) == Canonicalize(c);
    }
  }

  /** `l`, `I` and `O` are outside the class as written, yet accepted because of the `i` flag. */
  lemma ConfusablesAcceptedByFolding()
    ensures !InTailClass('l') && !InTailClass('I') && !InTailClass('O')
    ensures TailMatches('l') && TailMatches('I') && TailMatches('O')
  {
    TailMatchesAlnum('l');
    TailMatchesAlnum('I');
    TailMatchesAlnum('O');
  }

  /** A match covers exactly one whole line, and that line fits. */
  lemma MatchIsFittingLine(s: string, p: int, k: int)
    requires MatchesAt(s, p, k)
    ensures LineEnd(s, p) == p + k + TailLength
    ensures LineFits(s[p..p + k + TailLength])
  {
    var e := p + k + TailLength;
    forall i | p <= i < e
      ensures IsAsciiAlnum(s[i]) && (i < p + k ==> IsAsciiLetter(s[i]))
    {
      PrefixMatchesLetters(s[i]);
      TailMatchesAlnum(s[i]);
    }
    LineEndAt(s, p, e);
  }

  /** Helper: a terminator-free stretch ending at a line end is where `LineEnd` stops. */
  lemma {:induction false} LineEndAt(s: string, i: nat, e: nat)
    requires i <= e <= |s|
    requires forall j :: i <= j < e ==> !IsLineTerminator(s[j])
    requires e == |s| || IsLineTerminator(s[e])
    ensures LineEnd(s, i) == e
    decreases e - i
  {
    if i < e {
      LineEndAt(s, i + 1, e);
    }
  }

  /** A whole line that fits is matched with the prefix length its length dictates. */
  lemma FittingLineMatches(s: string, a: nat)
    requires a == 0 || (0 < a <= |s| && IsLineTerminator(s[a - 1]))
    requires a <= |s| && LineFits(s[a..LineEnd(s, a)])
    ensures MatchesAt(s, a, LineEnd(s, a) - a - TailLength)
  {
    var e := LineEnd(s, a);
    var line := s[a..e];
    forall i | a <= i < e
      ensures TailMatches(s[i]) && (i < e - TailLength ==> PrefixMatches(s[i]))
    {
      assert s[i] == line[i - a];
      PrefixMatchesLetters(s[i]);
      TailMatchesAlnum(s[i]);
    }
  }

  /** Some line from the one starting at `start` on fits. */
  ghost predicate SomeLineFitsFrom(s: string, start: nat)
    requires start <= |s|
  {
    exists line :: line in LinesFrom(s, start) && LineFits(line)
  }

  /** The regular expression matches at or after `start`. */
  ghost predicate MatchesFrom(s: string, start: nat) {
    exists p, k :: p >= start && MatchesAt(s, p, k)
  }

  /** The heart of the `m` flag: from a line start on, some line fits exactly when the regular
      expression matches somewhere. */
  lemma SomeLineFitsIffMatches(s: string, start: nat)
    requires start <= |s|
    requires start == 0 || IsLineTerminator(s[start - 1])
    ensures SomeLineFitsFrom(s, start) <==> MatchesFrom(s, start)
  {
    if SomeLineFitsFrom(s, start) {
      FittingLineGivesMatch(s, start);
    }
    if MatchesFrom(s, start) {
      MatchGivesFittingLine(s, start);
    }
  }

  lemma {:induction false} FittingLineGivesMatch(s: string, start: nat)
    requires start <= |s|
    requires start == 0 || IsLineTerminator(s[start - 1])
    requires SomeLineFitsFrom(s, start)
    ensures MatchesFrom(s, start)
    decreases |s| - start
  {
    var e := LineEnd(s, start);
    FitFirstOrLater(s, start);
    if LineFits(s[start..e]) {
      FittingLineMatches(s, start);
    } else {
      FittingLineGivesMatch(s, e + 1);
    }
  }

  /** Helper: a fitting line from `start` on is the first line or comes after its terminator. */
  lemma FitFirstOrLater(s: string, start: nat)
    requires start <= |s| && SomeLineFitsFrom(s, start)
    ensures || LineFits(s[start..LineEnd(s, start)])
            || (LineEnd(s, start) < |s| && SomeLineFitsFrom(s, LineEnd(s, start) + 1))
  {
    var line :| line in LinesFrom(s, start) && LineFits(line);
    LinesFromMembers(s, start);
  }

  lemma {:induction false} MatchGivesFittingLine(s: string, start: nat)
    requires start <= |s|
    requires start == 0 || IsLineTerminator(s[start - 1])
    requires MatchesFrom(s, start)
    ensures SomeLineFitsFrom(s, start)
    decreases |s| - start
  {
    var e := LineEnd(s, start);
    MatchFirstOrLater(s, start);
    if LineFits(s[start..e]) {
      FirstLineFits(s, start);
    } else {
      MatchGivesFittingLine(s, e + 1);
      LaterLineFits(s, start);
    }
  }

  /** Helper: a match from a line start on either covers the first line, which then fits, or
      starts after its terminator. */
  lemma MatchFirstOrLater(s: string, start: nat)
    requires start <= |s| && MatchesFrom(s, start)
    ensures || LineFits(s[start..LineEnd(s, start)])
            || (LineEnd(s, start) < |s| && MatchesFrom(s, LineEnd(s, start) + 1))
  {
    var p, k :| p >= start && MatchesAt(s, p, k);
    if p <= LineEnd(s, start) {
      MatchInFirstLine(s, start, p, k);
    }
  }

  /** Helper: the first line is one of the lines. */
  lemma FirstLineFits(s: string, start: nat)
    requires start <= |s| && LineFits(s[start..LineEnd(s, start)])
    ensures SomeLineFitsFrom(s, start)
  {
    var e := LineEnd(s, start);
    if e == |s| {
      assert s[start..] == s[start..e];
    }
    assert s[start..e] in LinesFrom(s, start);
  }

  /** Helper: the lines after the first are lines too. */
  lemma LaterLineFits(s: string, start: nat)
    requires start <= |s| && LineEnd(s, start) < |s|
    requires SomeLineFitsFrom(s, LineEnd(s, start) + 1)
    ensures SomeLineFitsFrom(s, start)
  {
    var line :| line in LinesFrom(s, LineEnd(s, start) + 1) && LineFits(line);
    assert line in LinesFrom(s, start);
  }

  /** A match starting inside the line at `start` starts at `start` and covers that line. */
  lemma MatchInFirstLine(s: string, start: nat, p: int, k: int)
    requires start <= |s| && start <= p <= LineEnd(s, start)
    requires MatchesAt(s, p, k)
    ensures LineFits(s[start..LineEnd(s, start)])
  {
    if p > start {
      assert false;
    }
    MatchIsFittingLine(s, p, k);
  }

  /** The lines from `start` on: the line at `start`, then those after its terminator. */
  lemma LinesFromMembers(s: string, start: nat)
    requires start <= |s|
    ensures var e := LineEnd(s, start);
            forall line :: line in LinesFrom(s, start) <==>
                             line == s[start..e] || (e < |s| && line in LinesFrom(s, e + 1))
  {
    var e := LineEnd(s, start);
    if e == |s| {
      assert s[start..] == s[start..e];
    }
  }

  /** No character of `s` ends a line. */
  predicate SingleLine(s: string) {
    forall i :: 0 <= i < |s| ==> !IsLineTerminator(s[i])
  }

  /** For one line, the backtracking `{1,83}` + `{39}` search succeeds exactly when the length
      is 40 to 122, every character is an ASCII letter or digit, and all but the last 39 are
      letters. */
  lemma SingleLineRule(t: string)
    requires SingleLine(t)
    ensures IsValidAddress(Some(t)) <==> LineFits(t)
    ensures IsValidAddress(Some(t)) ==> TailLength + 1 <= |t| <= MaxPrefix + TailLength
  {
    LineEndAt(t, 0, |t|);
    assert Lines(t) == [t[0..]];
    assert t[0..] == t;
  }

  /** A one-line string that starts with a digit, or holds any character that is not an ASCII
      letter or digit, is rejected. */
  lemma SingleLineBadCharacterRejected(t: string, i: nat)
    requires SingleLine(t) && i < |t|
    requires (i == 0 && '0' <= t[0] <= '9') || !IsAsciiAlnum(t[i])
    ensures !IsValidAddress(Some(t))
  {
    SingleLineRule(t);
  }

  /** `s` and `t` differ at most in the case of ASCII letters. */
  predicate SameUpToCase(s: string, t: string) {
    |s| == |t| && forall i :: 0 <= i < |s| ==> Canonicalize(s[i]) == Canonicalize(t[i])
  }

  /** Because of the `i` flag, letter case never changes the verdict. */
  lemma CaseDoesNotMatter(s: string, t: string)
    requires SameUpToCase(s, t)
    ensures IsValidAddress(Some(s)) == IsValidAddress(Some(t))
  {
    if RegexMatches(s) {
      MatchTransfersAcrossCase(s, t);
    }
    if RegexMatches(t) {
      MatchTransfersAcrossCase(t, s);
    }
  }

  lemma MatchTransfersAcrossCase(s: string, t: string)
    requires SameUpToCase(s, t) && RegexMatches(s)
    ensures RegexMatches(t)
  {
    var p, k :| MatchesAt(s, p, k);
    forall i | 0 <= i < |s|
      ensures IsLineTerminator(s[i]) <==> IsLineTerminator(t[i])
      ensures PrefixMatches(s[i]) ==> PrefixMatches(t[i])
      ensures TailMatches(s[i]) ==> TailMatches(t[i])
    {
    }
    assert MatchesAt(t, p, k);
  }

  /** No checksum is verified: any character of the 39-character tail of an accepted line can be
      replaced by any ASCII letter or digit, `l`, `I` and `O` included. */
  lemma TailCharacterIrrelevant(t: string, i: nat, c: char)
    requires SingleLine(t) && IsValidAddress(Some(t))
    requires |t| - TailLength <= i < |t| && IsAsciiAlnum(c)
    ensures IsValidAddress(Some(t[i := c]))
  {
    SingleLineRule(t);
    SingleLineRule(t[i := c]);
  }

  /** Because of the `m` flag, a fitting line anywhere in a longer text is enough: the other
      lines can hold anything. */
  lemma AnyFittingLineSuffices(before: string, line: string, after: string)
    requires before == [] || IsLineTerminator(before[|before| - 1])
    requires after == [] || IsLineTerminator(after[0])
    requires LineFits(line)
    ensures IsValidAddress(Some(before + line + after))
  {
    var s := before + line + after;
    var p, k := |before|, |line| - TailLength;
    forall i | p <= i < p + |line|
      ensures TailMatches(s[i]) && (i < p + k ==> PrefixMatches(s[i]))
    {
      assert s[i] == line[i - p];
      PrefixMatchesLetters(s[i]);
      TailMatchesAlnum(s[i]);
    }
    if after != [] {
      assert s[p + |line|] == after[0];
    }
    if before != [] {
      assert s[p - 1] == before[|before| - 1];
    }
    assert MatchesAt(s, p, k);
  }
}

=== FILE: authz_exec.dfy ===
/** The authz "exec" action: a nested action list whose messages are recomputed on every render
    (editor), and a decoder that turns a stored message list back into action/data pairs
    (renderer). */
module AuthzExec {
  import opened Wrappers
  import opened JsValues
  import opened Seqs
  import opened Actions

  /** A `{type, message}` error attached to the `msgs` field. */
  datatype FieldError = FieldError(kind: string, message: string)

  /** The slice of the form the editor reads and writes: the nested `_actions` list (absent until
      first written), the `msgs` value, and the error recorded on `msgs`. */
  datatype EditorForm = EditorForm(actions: Option<seq<Entry>>, msgs: seq<JsValue>, msgsError: Option<FieldError>)

  /** The form-library calls one editor render makes on the `msgs` field. */
  datatype FormCall = ClearMsgsError | SetMsgsError(error: FieldError) | SetMsgsValue(value: seq<JsValue>)

  const ManualErrorKind: string := "manual"

  /** The rows of the nested action list; an absent list has none. */
  function Fields(form: EditorForm): seq<Entry> {
    form.actions.GetOr([])
  }

  /** `watch('_actions')?.map(transform).filter(Boolean) ?? []`: an absent list gives `[]`. */
  function WatchedMessages(table: Table, actions: Option<seq<Entry>>): (r: Result<seq<JsValue>, Thrown>)
    ensures r.Ok? <==> actions.None? || AllReturn(table, actions.value)
    ensures r.Ok? ==> |r.value| <= |actions.GetOr([])|
    ensures r.Ok? ==> forall i :: 0 <= i < |r.value| ==> Truthy(r.value[i])
  {
    match actions
    case None => Ok([])
    case Some(es) => Messages(table, es)
  }

  /** The calls one render makes: on success, `clearErrors('msgs')` only if an error is recorded;
      on a throw, `setError('msgs', {type: 'manual', message})` only if none is recorded; in both
      cases the effect then stores the computed list (empty after a throw) in `msgs`. */
  function RecomputeCalls(table: Table, form: EditorForm): (calls: seq<FormCall>)
    ensures |calls| >= 1
    ensures ClearMsgsError in calls <==> WatchedMessages(table, form.actions).Ok? && form.msgsError.Some?
    ensures (exists e :: SetMsgsError(e) in calls) <==> WatchedMessages(table, form.actions).Err? && form.msgsError.None?
    ensures calls[|calls| - 1].SetMsgsValue?
  {
    match WatchedMessages(table, form.actions)
    case Ok(ms) =>
      (if form.msgsError.Some? then [ClearMsgsError] else []) + [SetMsgsValue(ms)]
    case Err(t) =>
      var e := FieldError(ManualErrorKind, ThrownText(t));
      var calls := (if form.msgsError.None? then [SetMsgsError(e)] else []) + [SetMsgsValue([])];
      assert form.msgsError.None? ==> calls[0] == SetMsgsError(e);
      calls
  }

  /** The form after one call. */
  function ApplyCall(form: EditorForm, call: FormCall): EditorForm {
    match call
    case ClearMsgsError => form.(msgsError := None)
    case SetMsgsError(e) => form.(msgsError := Some(e))
    case SetMsgsValue(v) => form.(msgs := v)
  }

  /** The form after the calls have been made, in order. */
  function ApplyCalls(form: EditorForm, calls: seq<FormCall>): (r: EditorForm)
    ensures r.actions == form.actions
    decreases |calls|
  {
    if |calls| == 0 then form else ApplyCalls(ApplyCall(form, calls[0]), calls[1..])
  }

  /** One editor render. All-or-nothing: any throwing transform empties `msgs` entirely, and the
      error recorded is the first throw's text unless an older error was already recorded. */
  function Recompute(table: Table, form: EditorForm): (r: EditorForm)
    ensures r.actions == form.actions
    ensures WatchedMessages(table, form.actions).Ok? ==>
              r.msgs == WatchedMessages(table, form.actions).value && r.msgsError.None?
    ensures WatchedMessages(table, form.actions).Err? ==> r.msgs == []
    ensures WatchedMessages(table, form.actions).Err? && form.msgsError.None? ==>
              r.msgsError == Some(FieldError(ManualErrorKind, ThrownText(WatchedMessages(table, form.actions).error)))
    ensures WatchedMessages(table, form.actions).Err? && form.msgsError.Some? ==>
              r.msgsError == form.msgsError
  {
    var calls := RecomputeCalls(table, form);
    assert |calls| == 1 ==> ApplyCalls(form, calls) == ApplyCall(form, calls[0]) by {
      if |calls| == 1 {
        assert calls[1..] == [];
      }
    }
    assert |calls| == 2 ==> ApplyCalls(form, calls) == ApplyCall(ApplyCall(form, calls[0]), calls[1]) by {
      if |calls| == 2 {
        var first := ApplyCall(form, calls[0]);
        assert calls[1..][1..] == [] && calls[1..][0] == calls[1];
        assert ApplyCalls(form, calls) == ApplyCalls(first, calls[1..]);
        assert ApplyCalls(first, calls[1..]) == ApplyCalls(ApplyCall(first, calls[1]), []);
      }
    }
    ApplyCalls(form, calls)
  }

  /** `appendAction({key, data: cloneDeep(loadedActions[key]?.defaults ?? {})})`. Values are
      immutable here, so the deep copy is the value itself. */
  function AppendAction(table: Table, form: EditorForm, key: ActionKey): (r: EditorForm)
    ensures r.actions.Some?
    ensures |Fields(r)| == |Fields(form)| + 1
    ensures Fields(r)[..|Fields(form)|] == Fields(form)
    ensures Fields(r)[|Fields(form)|] == Entry(key, DefaultsFor(table, key))
    ensures r.msgs == form.msgs && r.msgsError == form.msgsError
  {
    form.(actions := Some(Fields(form) + [Entry(key, DefaultsFor(table, key))]))
  }

  /** Appending a row and rendering grows `msgs` by at most one message, at the end; a row
      whose key has no loaded action adds none and records no error. */
  lemma AppendThenRecompute(table: Table, form: EditorForm, key: ActionKey)
    requires AllReturn(table, Fields(form))
    ensures var before := Messages(table, Fields(form)).value;
            var after := Recompute(table, AppendAction(table, form, key));
            && (after.msgsError.None? ==> |before| <= |after.msgs| <= |before| + 1)
            && (after.msgsError.None? ==> after.msgs[..|before|] == before)
            && (key !in table ==> after.msgs == before && after.msgsError.None?)
  {
    var e := Entry(key, DefaultsFor(table, key));
    var before := Messages(table, Fields(form)).value;
    assert Fields(AppendAction(table, form, key)) == Fields(form) + [e];
    MessagesAppend(table, Fields(form), [e]);
    if key !in table {
      UnknownEntryHasNoMessage(table, e);
      assert before + [] == before;
    }
  }

  /** `resetField('_actions.<i>.data', {defaultValue: {}})`: the row keeps its key and its data
      becomes `{}`. */
  function ResetEntryData(form: EditorForm, i: nat): (r: EditorForm)
    ensures |Fields(r)| == |Fields(form)|
    ensures i < |Fields(form)| ==> Fields(r)[i] == Entry(Fields(form)[i].key, EmptyObject)
    ensures forall j :: 0 <= j < |Fields(form)| && j != i ==> Fields(r)[j] == Fields(form)[j]
    ensures r.msgs == form.msgs && r.msgsError == form.msgsError
  {
    if i < |Fields(form)| then
      form.(actions := Some(Fields(form)[i := Entry(Fields(form)[i].key, EmptyObject)]))
    else form
  }

  /** `removeAction(i)` */
  function RemoveEntry(form: EditorForm, i: nat): EditorForm {
    if i < |Fields(form)| then form.(actions := Some(RemoveAt(Fields(form), i))) else form
  }

  /** A card's `onRemove`: reset the row's data, then remove the row. The reset leaves no trace:
      the other rows keep their contents and relative order. */
  function OnRemove(form: EditorForm, i: nat): (r: EditorForm)
    ensures i < |Fields(form)| ==> |Fields(r)| == |Fields(form)| - 1
    ensures i < |Fields(form)| ==> forall j :: 0 <= j < i ==> Fields(r)[j] == Fields(form)[j]
    ensures i < |Fields(form)| ==> forall j :: i <= j < |Fields(r)| ==> Fields(r)[j] == Fields(form)[j + 1]
    ensures i >= |Fields(form)| ==> r == form
  {
    RemoveEntry(ResetEntryData(form, i), i)
  }

  /** A transform that throws anywhere in the list empties the whole message list, even when
      every other entry produced a message. */
  lemma AllOrNothing(table: Table, form: EditorForm, i: nat)
    requires form.actions.Some? && i < |form.actions.value|
    requires TransformEntry(table, form.actions.value[i]).Threw?
    ensures Recompute(table, form).msgs == []
    ensures Recompute(table, form).msgsError.Some?
  {
  }

  /** The recorded error text belongs to the first entry whose transform throws. */
  lemma RecordedErrorIsFirstThrow(table: Table, form: EditorForm)
    requires form.actions.Some? && !AllReturn(table, form.actions.value)
    requires form.msgsError.None?
    ensures exists i :: && 0 <= i < |form.actions.value|
                        && AllReturn(table, form.actions.value[..i])
                        && TransformEntry(table, form.actions.value[i]).Threw?
                        && Recompute(table, form).msgsError ==
                             Some(FieldError(ManualErrorKind, ThrownText(TransformEntry(table, form.actions.value[i]).thrown)))
  {
    MessagesErrorIsFirstThrow(table, form.actions.value);
  }

  /** Rendering twice changes nothing more than rendering once. */
  lemma RecomputeIdempotent(table: Table, form: EditorForm)
    ensures Recompute(table, Recompute(table, form)) == Recompute(table, form)
  {
  }

  /** Editing the appended entry and recomputing leaves the action table, and so the defaults the
      next append copies, untouched. */
  lemma AppendedCopyIsIndependent(table: Table, form: EditorForm, key: ActionKey, edited: JsValue)
    ensures var appended := AppendAction(table, form, key);
            var n := |Fields(form)|;
            var edit := appended.(actions := Some(Fields(appended)[n := Entry(key, edited)]));
            && Fields(edit)[n].data == edited
            && Fields(AppendAction(table, Recompute(table, edit), key))[n + 1].data == DefaultsFor(table, key)
  {
  }

  // ---- Renderer ----

  /** What `action.useDecodedCosmosMsg(message)` reports: no match, or a match with form data. */
  datatype Verdict = NoMatch | Match(data: JsValue)

  /** An entry of `orderedActions`: its key and its decoder. */
  datatype OrderedAction = OrderedAction(key: ActionKey, decode: JsValue -> Verdict)

  /** `ActionAndData` */
  datatype ActionAndData = ActionAndData(action: OrderedAction, data: JsValue)

  /** Every action's decoder run on `message`, in `orderedActions` order; none is skipped. */
  function Verdicts(actions: seq<OrderedAction>, message: JsValue): seq<Verdict> {
    seq(|actions|, j requires 0 <= j < |actions| => actions[j].decode(message))
  }

  /** `.find(({match}) => match)` over the verdicts: the position of the first matching action. */
  function Chosen(actions: seq<OrderedAction>, message: JsValue): (r: Option<nat>)
    ensures r.Some? ==> r.value < |actions| && actions[r.value].decode(message).Match?
    ensures r.Some? ==> forall j :: 0 <= j < r.value ==> actions[j].decode(message).NoMatch?
    ensures r.None? <==> forall j :: 0 <= j < |actions| ==> actions[j].decode(message).NoMatch?
  {
    var vs := Verdicts(actions, message);
    assert |vs| == |actions| && forall j :: 0 <= j < |actions| ==> vs[j] == actions[j].decode(message);
    FirstIndex(vs, (v: Verdict) => v.Match?)
  }

  /** `actionMatch && {action, data}` for one message. */
  function DecodeOne(actions: seq<OrderedAction>, message: JsValue): (r: Option<ActionAndData>)
    ensures r.Some? <==> Chosen(actions, message).Some?
    ensures r.Some? ==> && r.value.action == actions[Chosen(actions, message).value]
                        && Match(r.value.data) == actions[Chosen(actions, message).value].decode(message)
  {
    match Chosen(actions, message)
    case None => None
    case Some(j) => Some(ActionAndData(actions[j], actions[j].decode(message).data))
  }

  /** `decodedMessages.map(...).filter(Boolean)`: one pair per message some action matches. */
  function DecodeAll(actions: seq<OrderedAction>, messages: seq<JsValue>): (r: seq<ActionAndData>)
    ensures |r| <= |messages|
  {
    FilterMap(messages, (m: JsValue) => DecodeOne(actions, m))
  }

  /** The positions of the messages some action matches, in increasing order. */
  ghost function MatchedPositions(actions: seq<OrderedAction>, messages: seq<JsValue>): seq<nat> {
    KeptPositions(messages, (m: JsValue) => DecodeOne(actions, m), 0)
  }

  /** Decoding keeps message order and drops exactly the messages nothing matches: output `i`
      is the decoding of message `pos[i]` by its first matching action, positions increase, and
      a position is absent exactly when no action matches its message. */
  lemma DecodeAllKeepsOrder(actions: seq<OrderedAction>, messages: seq<JsValue>)
    ensures |DecodeAll(actions, messages)| == |MatchedPositions(actions, messages)|
    ensures forall i :: 0 <= i < |MatchedPositions(actions, messages)| ==>
              && MatchedPositions(actions, messages)[i] < |messages|
              && DecodeOne(actions, messages[MatchedPositions(actions, messages)[i]])
                 == Some(DecodeAll(actions, messages)[i])
    ensures StrictlyIncreasing(MatchedPositions(actions, messages))
    ensures forall k :: 0 <= k < |messages| ==>
              (k in MatchedPositions(actions, messages) <==> Chosen(actions, messages[k]).Some?)
  {
    FilterMapKeepsOrder(messages, (m: JsValue) => DecodeOne(actions, m));
  }

  /** Concatenated message lists decode to the concatenated decodings. */
  lemma DecodeAllAppend(actions: seq<OrderedAction>, a: seq<JsValue>, b: seq<JsValue>)
    ensures DecodeAll(actions, a + b) == DecodeAll(actions, a) + DecodeAll(actions, b)
  {
    FilterMapAppend(a, b, (m: JsValue) => DecodeOne(actions, m));
  }

  /** An action that matches wins over every later one: the chosen action never sits after it. */
  lemma EarlierActionWins(actions: seq<OrderedAction>, message: JsValue, j: nat)
    requires j < |actions| && actions[j].decode(message).Match?
    ensures Chosen(actions, message).Some? && Chosen(actions, message).value <= j
  {
  }

  /** The choice depends only on the actions up to the chosen one: appending further actions, or
      replacing the later ones, does not change it. */
  lemma ChoiceIgnoresLaterActions(actions: seq<OrderedAction>, later: seq<OrderedAction>, message: JsValue)
    requires Chosen(actions, message).Some?
    ensures Chosen(actions + later, message) == Chosen(actions, message)
    ensures DecodeOne(actions + later, message) == DecodeOne(actions, message)
  {
    var j := Chosen(actions, message).value;
    assert (actions + later)[j] == actions[j];
    EarlierActionWins(actions + later, message, j);
    assert forall i :: 0 <= i < j ==> (actions + later)[i].decode(message).NoMatch?;
  }

  /** A decoder that recognises messages of the form `{<top>: ...}` and keeps the message as
      its form data. */
  function TopLevelDecoder(top: string): JsValue -> Verdict {
    (m: JsValue) => if m.Obj? && |m.fields| == 1 && m.fields[0].0 == top then Match(m) else NoMatch
  }

  /** A bank-send and a contract-execute action, in that priority order: a bank message, an
      unrecognised message and a wasm message decode to the bank action then the execute action,
      and the unrecognised message is dropped. */
  lemma BankThenExecuteScenario(bank: JsValue, wasm: JsValue)
    ensures var actions := [OrderedAction("spend", TopLevelDecoder("bank")),
                            OrderedAction("execute", TopLevelDecoder("wasm"))];
            var bankMsg, wasmMsg := Obj([("bank", bank)]), Obj([("wasm", wasm)]);
            var r := DecodeAll(actions, [bankMsg, Obj([("staking", Null)]), wasmMsg]);
            && |r| == 2
            && r[0] == ActionAndData(actions[0], bankMsg)
            && r[1] == ActionAndData(actions[1], wasmMsg)
  {
    var actions := [OrderedAction("spend", TopLevelDecoder("bank")),
                    OrderedAction("execute", TopLevelDecoder("wasm"))];
    var bankMsg, wasmMsg, other := Obj([("bank", bank)]), Obj([("wasm", wasm)]), Obj([("staking", Null)]);
    EarlierActionWins(actions, bankMsg, 0);
    assert actions[0].decode(other).NoMatch? && actions[1].decode(other).NoMatch?;
    EarlierActionWins(actions, wasmMsg, 1);
    assert actions[0].decode(wasmMsg).NoMatch?;
    DecodeAllSingle(actions, bankMsg);
    DecodeAllSingle(actions, other);
    DecodeAllSingle(actions, wasmMsg);
    DecodeAllAppend(actions, [bankMsg], [other]);
    DecodeAllAppend(actions, [bankMsg] + [other], [wasmMsg]);
    assert [bankMsg, other, wasmMsg] == [bankMsg] + [other] + [wasmMsg];
  }

  /** Helper: a one-message list decodes to that message's pair, or to nothing. */
  lemma DecodeAllSingle(actions: seq<OrderedAction>, m: JsValue)
    ensures DecodeOne(actions, m).None? ==> DecodeAll(actions, [m]) == []
    ensures DecodeOne(actions, m).Some? ==> DecodeAll(actions, [m]) == [DecodeOne(actions, m).value]
  {
    assert [m][0] == m && [m][1..] == [];
  }
}

=== FILE: js_value.dfy ===
/** The JavaScript values that flow through the action forms: form data, Cosmos messages and
    whatever a transform returns. Numbers are integers (floating point is not modelled). */
module JsValues {

  datatype JsValue =
    | Undefined
    | Null
    | Bool(b: bool)
    | Num(n: int)
    | Str(s: string)
    | Arr(items: seq<JsValue>)
    | Obj(fields: seq<(string, JsValue)>)

  /** `Boolean(v)`, the predicate `.filter(Boolean)` keeps. */
  predicate Truthy(v: JsValue) {
    match v
    case Undefined => false
    case Null => false
    case Bool(b) => b
    case Num(n) => n != 0
    case Str(s) => s != ""
    case Arr(_) => true
    case Obj(_) => true
  }

  /** The values `??` replaces. */
  predicate Nullish(v: JsValue) {
    v.Undefined? || v.Null?
  }

  /** The literal `{}`. */
  const EmptyObject: JsValue := Obj([])

  /** `v ?? fallback` */
  function Coalesce(v: JsValue, fallback: JsValue): JsValue {
    if Nullish(v) then fallback else v
  }
}

=== FILE: seqs.dfy ===
/** Generic facts about sequences shared by the action pipelines. */
module Seqs {
  import opened Wrappers

  /** `xs` is obtained from `ys` by deleting elements, keeping the order of the rest. */
  ghost predicate IsSubsequence<T>(xs: seq<T>, ys: seq<T>)
    decreases |ys|
  {
    || |xs| == 0
    || (&& |ys| > 0
        && ((xs[0] == ys[0] && IsSubsequence(xs[1..], ys[1..])) || IsSubsequence(xs, ys[1..])))
  }

  /** `Array.prototype.findIndex`: the position of the first element satisfying `p`. */
  function FirstIndex<T>(xs: seq<T>, p: T -> bool): (r: Option<nat>)
    ensures r.Some? ==> r.value < |xs| && p(xs[r.value])
    ensures r.Some? ==> forall j :: 0 <= j < r.value ==> !p(xs[j])
    ensures r.None? <==> forall j :: 0 <= j < |xs| ==> !p(xs[j])
    decreases |xs|
  {
    if |xs| == 0 then None
    else if p(xs[0]) then Some(0)
    else match FirstIndex(xs[1..], p)
      case None => None
      case Some(i) => Some(i + 1)
  }

  /** Deleting one position keeps every other element in its relative order. */
  function RemoveAt<T>(xs: seq<T>, i: nat): (r: seq<T>)
    requires i < |xs|
    ensures |r| == |xs| - 1
    ensures forall j :: 0 <= j < i ==> r[j] == xs[j]
    ensures forall j :: i <= j < |r| ==> r[j] == xs[j + 1]
  {
    xs[..i] + xs[i + 1..]
  }

  /** Every element of a subsequence occurs in the original sequence. */
  lemma {:induction false} SubsequenceElements<T>(xs: seq<T>, ys: seq<T>)
    requires IsSubsequence(xs, ys)
    ensures forall x :: x in xs ==> x in ys
    decreases |ys|
  {
    if |xs| > 0 {
      if xs[0] == ys[0] && IsSubsequence(xs[1..], ys[1..]) {
        SubsequenceElements(xs[1..], ys[1..]);
        assert forall x :: x in xs ==> x == xs[0] || x in xs[1..];
      } else {
        SubsequenceElements(xs, ys[1..]);
      }
    }
  }

  /** `xs.map(f).filter(Boolean)` for an `f` whose falsy result is `None`. */
  function FilterMap<T, U>(xs: seq<T>, f: T -> Option<U>): (r: seq<U>)
    ensures |r| <= |xs|
    decreases |xs|
  {
    if |xs| == 0 then []
    else
      var rest := FilterMap(xs[1..], f);
      match f(xs[0])
      case None => rest
      case Some(y) => [y] + rest
  }

  /** The positions (counted from `offset`) of the elements `f` keeps, in order. */
  ghost function KeptPositions<T, U>(xs: seq<T>, f: T -> Option<U>, offset: nat): seq<nat>
    decreases |xs|
  {
    if |xs| == 0 then []
    else
      var rest := KeptPositions(xs[1..], f, offset + 1);
      if f(xs[0]).Some? then [offset] + rest else rest
  }

  ghost predicate AllAtLeast(ns: seq<nat>, n: nat) {
    forall i :: 0 <= i < |ns| ==> n <= ns[i]
  }

  ghost predicate StrictlyIncreasing(ns: seq<nat>) {
    forall i, j :: 0 <= i < j < |ns| ==> ns[i] < ns[j]
  }

  /** Result `i` is what `f` made of the element at position `pos[i]`. */
  ghost predicate Paired<T, U>(xs: seq<T>, f: T -> Option<U>, offset: nat, pos: seq<nat>, r: seq<U>) {
    && |r| == |pos|
    && forall i :: 0 <= i < |pos| ==> offset <= pos[i] < offset + |xs| && f(xs[pos[i] - offset]) == Some(r[i])
  }

  lemma {:induction false} FilterMapPaired<T, U>(xs: seq<T>, f: T -> Option<U>, offset: nat)
    ensures Paired(xs, f, offset, KeptPositions(xs, f, offset), FilterMap(xs, f))
    decreases |xs|
  {
    if |xs| > 0 {
      var tail := xs[1..];
      FilterMapPaired(tail, f, offset + 1);
      var pos, rest := KeptPositions(xs, f, offset), KeptPositions(tail, f, offset + 1);
      var r, r' := FilterMap(xs, f), FilterMap(tail, f);
      if f(xs[0]).Some? {
        assert pos == [offset] + rest && r == [f(xs[0]).value] + r';
        forall i | 1 <= i < |pos|
          ensures offset <= pos[i] < offset + |xs| && f(xs[pos[i] - offset]) == Some(r[i])
        {
          assert pos[i] == rest[i - 1] && r[i] == r'[i - 1];
          assert xs[pos[i] - offset] == tail[rest[i - 1] - (offset + 1)];
        }
      } else {
        assert pos == rest && r == r';
        forall i | 0 <= i < |pos|
          ensures offset <= pos[i] < offset + |xs| && f(xs[pos[i] - offset]) == Some(r[i])
        {
          assert xs[pos[i] - offset] == tail[rest[i] - (offset + 1)];
        }
      }
    }
  }

  lemma {:induction false} KeptPositionsIncrease<T, U>(xs: seq<T>, f: T -> Option<U>, offset: nat)
    ensures AllAtLeast(KeptPositions(xs, f, offset), offset)
    ensures StrictlyIncreasing(KeptPositions(xs, f, offset))
    decreases |xs|
  {
    if |xs| > 0 {
      KeptPositionsIncrease(xs[1..], f, offset + 1);
      var rest := KeptPositions(xs[1..], f, offset + 1);
      var pos := KeptPositions(xs, f, offset);
      if f(xs[0]).Some? {
        assert pos == [offset] + rest;
        assert forall i :: 1 <= i < |pos| ==> pos[i] == rest[i - 1];
      } else {
        assert pos == rest;
      }
    }
  }

  lemma {:induction false} KeptPositionsExact<T, U>(xs: seq<T>, f: T -> Option<U>, offset: nat)
    ensures forall k :: 0 <= k < |xs| ==> (offset + k in KeptPositions(xs, f, offset) <==> f(xs[k]).Some?)
    decreases |xs|
  {
    if |xs| > 0 {
      KeptPositionsExact(xs[1..], f, offset + 1);
      KeptPositionsIncrease(xs[1..], f, offset + 1);
      var rest := KeptPositions(xs[1..], f, offset + 1);
      var pos := KeptPositions(xs, f, offset);
      assert pos == (if f(xs[0]).Some? then [offset] + rest else rest);
      assert offset !in rest;
      forall k | 0 <= k < |xs|
        ensures offset + k in pos <==> f(xs[k]).Some?
      {
        if k > 0 {
          assert xs[k] == xs[1..][k - 1];
          assert offset + k in pos <==> offset + 1 + (k - 1) in rest;
        }
      }
    }
  }

  /** `FilterMap` keeps order and drops exactly what `f` rejects: result `i` comes from position
      `pos[i]`, the positions increase, and a position is missing exactly when `f` rejects it. */
  lemma FilterMapKeepsOrder<T, U>(xs: seq<T>, f: T -> Option<U>)
    ensures |FilterMap(xs, f)| == |KeptPositions(xs, f, 0)|
    ensures forall i :: 0 <= i < |KeptPositions(xs, f, 0)| ==>
              KeptPositions(xs, f, 0)[i] < |xs| && f(xs[KeptPositions(xs, f, 0)[i]]) == Some(FilterMap(xs, f)[i])
    ensures StrictlyIncreasing(KeptPositions(xs, f, 0))
    ensures forall k :: 0 <= k < |xs| ==> (k in KeptPositions(xs, f, 0) <==> f(xs[k]).Some?)
  {
    FilterMapPaired(xs, f, 0);
    assert Paired(xs, f, 0, KeptPositions(xs, f, 0), FilterMap(xs, f));
    KeptPositionsIncrease(xs, f, 0);
    KeptPositionsExact(xs, f, 0);
  }

  /** `FilterMap` of a concatenation is the concatenation of the parts' results. */
  lemma {:induction false} FilterMapAppend<T, U>(a: seq<T>, b: seq<T>, f: T -> Option<U>)
    ensures FilterMap(a + b, f) == FilterMap(a, f) + FilterMap(b, f)
    decreases |a|
  {
    if |a| == 0 {
      assert a + b == b;
    } else {
      assert (a + b)[0] == a[0] && (a + b)[1..] == a[1..] + b;
      FilterMapAppend(a[1..], b, f);
    }
  }
}

=== FILE: wallet.dfy ===
/** The wallet page: an ordered action list, a Preview/Submit form, and the message list that
    is either previewed or handed to `execute`. */
module WalletPage {
  import opened Wrappers
  import opened JsValues
  import opened Seqs
  import opened Actions

  /** The form values and the two pieces of page state the submit handlers touch. */
  datatype WalletState = WalletState(
    actionData: seq<Entry>,
    showPreview: bool,
    showSubmitErrorNote: bool)

  /** What a handler does beyond updating the state: nothing, one `execute(messages)` call,
      or an exception escaping the handler. */
  datatype Effect = NoEffect | Execute(messages: seq<JsValue>) | Raised(thrown: Thrown)

  datatype Step = Step(state: WalletState, effect: Effect)

  /** The `value` of the Preview submit button. */
  const PreviewValue: string := "Preview"

  /** `onSelectAction`: append `{key, data: actionsWithData[key]?.defaults ?? {}}`. */
  function SelectAction(table: Table, st: WalletState, key: ActionKey): (r: WalletState)
    ensures |r.actionData| == |st.actionData| + 1
    ensures r.actionData[..|st.actionData|] == st.actionData
    ensures r.actionData[|st.actionData|] == Entry(key, DefaultsFor(table, key))
    ensures !Nullish(r.actionData[|st.actionData|].data)
    ensures r.showPreview == st.showPreview && r.showSubmitErrorNote == st.showSubmitErrorNote
  {
    st.(actionData := st.actionData + [Entry(key, DefaultsFor(table, key))])
  }

  /** The `onRemove` callback of a rendered card: `remove(index)`. */
  function RemoveAction(st: WalletState, index: nat): (r: WalletState)
    ensures index < |st.actionData| ==> r.actionData == RemoveAt(st.actionData, index)
    ensures index >= |st.actionData| ==> r == st
    ensures r.showPreview == st.showPreview && r.showSubmitErrorNote == st.showSubmitErrorNote
  {
    if index < |st.actionData| then st.(actionData := RemoveAt(st.actionData, index)) else st
  }

  /** `onSubmitForm`: clear the error note; the Preview button only flips `showPreview`; any
      other submitter builds the message list and calls `execute` with it. */
  function OnSubmitForm(table: Table, st: WalletState, submitter: Option<string>): (r: Step)
    ensures !r.state.showSubmitErrorNote
    ensures r.state.actionData == st.actionData
    ensures submitter == Some(PreviewValue) ==>
              r.effect == NoEffect && r.state.showPreview == !st.showPreview
    ensures submitter != Some(PreviewValue) ==> r.state.showPreview == st.showPreview
    ensures submitter != Some(PreviewValue) ==>
              (r.effect.Execute? <==> AllReturn(table, st.actionData))
    ensures submitter != Some(PreviewValue) ==>
              r.effect == (match Messages(table, st.actionData)
                           case Ok(ms) => Execute(ms)
                           case Err(t) => Raised(t))
    ensures r.effect.Execute? ==>
              && |r.effect.messages| <= |st.actionData|
              && forall i :: 0 <= i < |r.effect.messages| ==> Truthy(r.effect.messages[i])
  {
    var cleared := st.(showSubmitErrorNote := false);
    if submitter == Some(PreviewValue) then
      Step(cleared.(showPreview := !cleared.showPreview), NoEffect)
    else
      match Messages(table, st.actionData)
      case Ok(messages) => Step(cleared, Execute(messages))
      case Err(t) => Step(cleared, Raised(t))
  }

  /** `onSubmitError`: validation failed, show the error note. */
  function OnSubmitError(st: WalletState): (r: WalletState)
    ensures r.showSubmitErrorNote
    ensures r.actionData == st.actionData && r.showPreview == st.showPreview
  {
    st.(showSubmitErrorNote := true)
  }

  /** `handleSubmit(onSubmitForm, onSubmitError)`: the form's validation result (computed by the
      form library, outside this model) selects the handler. */
  function HandleSubmit(table: Table, st: WalletState, valid: bool, submitter: Option<string>): (r: Step)
    ensures valid <==> !r.state.showSubmitErrorNote
    ensures !valid ==> r.effect == NoEffect && r.state.showPreview == st.showPreview
    ensures r.state.actionData == st.actionData
  {
    if valid then OnSubmitForm(table, st, submitter) else Step(OnSubmitError(st), NoEffect)
  }

  /** The list the preview panel displays, computed from the watched form values whenever
      `showPreview` is set. */
  function PreviewMessages(table: Table, st: WalletState): (r: Option<Result<seq<JsValue>, Thrown>>)
    ensures r.Some? <==> st.showPreview
    ensures r.Some? ==> (r.value.Ok? <==> AllReturn(table, st.actionData))
  {
    if st.showPreview then Some(Messages(table, st.actionData)) else None
  }

  /** Rendering the action cards: the first entry whose `Component` cannot be found throws
      `Error detecting action type "<key>".`; otherwise every entry gets a card. */
  function RenderCards(table: Table, entries: seq<Entry>): (r: Option<Thrown>)
    ensures r.None? <==> forall i :: 0 <= i < |entries| ==> HasComponent(table, entries[i].key)
    ensures r.Some? ==> exists i :: && 0 <= i < |entries|
                                    && !HasComponent(table, entries[i].key)
                                    && (forall j :: 0 <= j < i ==> HasComponent(table, entries[j].key))
                                    && r.value == DetectionError(entries[i].key)
  {
    match FirstIndex(entries, (e: Entry) => !HasComponent(table, e.key))
    case None => None
    case Some(i) => Some(DetectionError(entries[i].key))
  }

  function DetectionError(key: ActionKey): Thrown {
    ErrorInstance("Error detecting action type \"" + key + "\".")
  }

  /** Two Preview submits in a row leave `showPreview` as it was, and neither executes. */
  lemma PreviewTwiceRestores(table: Table, st: WalletState)
    ensures var s1 := HandleSubmit(table, st, true, Some(PreviewValue));
            var s2 := HandleSubmit(table, s1.state, true, Some(PreviewValue));
            && s1.effect == NoEffect && s2.effect == NoEffect
            && s2.state == st.(showSubmitErrorNote := false)
  {
  }

  /** A valid Submit executes exactly the list the preview panel shows for the same form state;
      when building that list throws, the submit raises the same error the preview does. */
  lemma PreviewMatchesSubmit(table: Table, st: WalletState, submitter: Option<string>)
    requires st.showPreview && submitter != Some(PreviewValue)
    ensures var step := HandleSubmit(table, st, true, submitter);
            match PreviewMessages(table, st).value
            case Ok(ms) => step.effect == Execute(ms)
            case Err(t) => step.effect == Raised(t)
  {
  }

  /** The executed list is, in entry order, a selection of the per-entry transform results:
      never longer than the action list, never reordered. */
  lemma ExecutedIsSubsequence(table: Table, st: WalletState, submitter: Option<string>)
    requires HandleSubmit(table, st, true, submitter).effect.Execute?
    ensures var ms := HandleSubmit(table, st, true, submitter).effect.messages;
            && MapEntries(table, st.actionData).Ok?
            && IsSubsequence(ms, MapEntries(table, st.actionData).value)
            && forall m :: m in ms ==> exists i :: 0 <= i < |st.actionData| &&
                                           TransformEntry(table, st.actionData[i]) == Returned(m)
  {
    var vs := MapEntries(table, st.actionData).value;
    var ms := HandleSubmit(table, st, true, submitter).effect.messages;
    MessagesAreSubsequence(table, st.actionData);
    MapEntriesPointwise(table, st.actionData);
    SubsequenceElements(ms, vs);
    forall m | m in ms
      ensures exists i :: 0 <= i < |st.actionData| && TransformEntry(table, st.actionData[i]) == Returned(m)
    {
      var i :| 0 <= i < |vs| && vs[i] == m;
      assert TransformEntry(table, st.actionData[i]) == Returned(m);
    }
  }

  /** Every truthy transform result is among the messages a valid Submit executes. */
  lemma TruthyResultIsExecuted(table: Table, st: WalletState, submitter: Option<string>, i: nat, v: JsValue)
    requires submitter != Some(PreviewValue) && AllReturn(table, st.actionData)
    requires i < |st.actionData| && TransformEntry(table, st.actionData[i]) == Returned(v) && Truthy(v)
    ensures HandleSubmit(table, st, true, submitter).effect.Execute?
    ensures v in HandleSubmit(table, st, true, submitter).effect.messages
  {
    TruthyResultIsKept(table, st.actionData, i, v);
  }

  /** Selecting an action appends at most one message, at the end of the list. */
  lemma SelectActionAppendsMessage(table: Table, st: WalletState, key: ActionKey)
    requires AllReturn(table, st.actionData)
    ensures var before := Messages(table, st.actionData).value;
            var after := Messages(table, SelectAction(table, st, key).actionData);
            && (after.Ok? ==> |before| <= |after.value| <= |before| + 1)
            && (after.Ok? ==> after.value[..|before|] == before)
            && (key !in table ==> after == Ok(before))
  {
    var e := Entry(key, DefaultsFor(table, key));
    var before := Messages(table, st.actionData).value;
    MessagesAppend(table, st.actionData, [e]);
    if key !in table {
      UnknownEntryHasNoMessage(table, e);
      assert before + [] == before;
    }
  }

  /** An entry whose key the page does not know makes rendering throw, yet it vanishes silently
      from the message list that would be executed. */
  lemma UnknownKeyRenderThrowsButIsDropped(table: Table, before: seq<Entry>, e: Entry, after: seq<Entry>)
    requires e.key !in table
    ensures RenderCards(table, before + [e] + after).Some?
    ensures Messages(table, before + [e] + after) == Messages(table, before + after)
  {
    var all := before + [e] + after;
    assert all[|before|] == e;
    MessagesAppend(table, before, [e]);
    MessagesAppend(table, before + [e], after);
    MessagesAppend(table, before, after);
    UnknownEntryHasNoMessage(table, e);
    if Messages(table, before).Ok? {
      assert Messages(table, before).value + [] == Messages(table, before).value;
    }
  }
}

=== FILE: wrappers.dfy ===
/** Failure-carrying datatypes used across the model. */
module Wrappers {

  /** `T | undefined` */
  datatype Option<+T> = None | Some(value: T) {

    /** The wrapped value, or `default` when there is none (the `?? default` idiom). */
    function GetOr(default: T): T {
      match this
      case Some(v) => v
      case None => default
    }
  }

  /** A computation that either produced a value or threw `error`. */
  datatype Result<+R, +E> = Ok(value: R) | Err(error: E)
}
